=== FILE: README.md ===
# Traffic-fine lookup pipeline: a Dafny model

This project models the core of the `KiemTraPhatNguoi` node. The node looks up
traffic violations for a vehicle plate on the Vietnamese traffic police site.
To do that it solves an image CAPTCHA, submits the lookup form, fetches the
result page and turns the page into violation records. The model covers three
pieces of pure logic that sit inside the network and OCR code:

- the string helpers and validators of `utils.ts`. These are plate cleaning,
  vehicle-type inference, CAPTCHA normalisation and its length check, the
  fines-URL prefix check, and extraction of the `PHPSESSID` pair from
  `Set-Cookie`;
- `retryWrapper`. It is modelled over the finite sequence of outcomes its
  operation produces, with a validator that can accept, reject or throw;
- the decisions of `KiemTraPhatNguoiExecute.ts`. These are the result-page
  classification, the positional mapping of label/value blocks onto the eight
  record fields plus `resolvingUnit`, the three stage validators, the way a
  lookup attempt depends on its own CAPTCHA stage, and the envelope that
  `checkFines` returns.

Modules: `Wrappers` (Option), `JsString` (the JavaScript string built-ins
the code calls; `toLowerCase` on ASCII only), `Utils`, `RetryWrapper`, `FinesPage`
(`parseFinesUrl`) and `FinesPipeline` (validators, stages, `checkFines`).

Network answers, image decoding, OCR and HTML parsing are inputs:

- a `CaptchaExchange` is what one `resolverCaptcha` call meets;
- a `FinesCall` is what one `getFinesUrl` call meets: its CAPTCHA exchanges
  and the `href` the lookup endpoint answers for a plate and vehicle type;
- a `Page` is one result-page fetch;
- `blocksOf` gives the trimmed `.form-group` blocks of a fragment of markup.

## Behaviour the model follows

These properties come from the code itself. Some are surprising given the
code's own names, such as the `retry` flag and the `Can not get session id`
branch.

- When `retryWrapper` runs out of attempts it returns `undefined`. It never
  returns the last rejected value, because `response` is only assigned on
  acceptance.
- Validators destructure their argument, so a raised attempt (`undefined`)
  or a `null` CAPTCHA result makes the validator throw out of the wrapper.
  Any CAPTCHA-stage failure therefore propagates. A failed image request, a
  missing image, or an exhausted CAPTCHA stage makes `getFinesUrl` raise.
  The lookup validator then throws, and `checkFines` rejects instead of
  returning an envelope (`CaptchaFailureEscapes`).
- `parseFinesUrl` pushes one record per non-blank fragment. The `retry`
  expression at KiemTraPhatNguoiExecute.ts:126 is therefore always false, including when there
  are no fragments at all. The `!wrappers` test at KiemTraPhatNguoiExecute.ts:88 and
  the `!allElements` test at KiemTraPhatNguoiExecute.ts:106 can never succeed.
- A block with an empty value is dropped only when it has a non-empty label.
  A block with neither a value nor a label goes to `resolvingUnit`.
- `isValidCaptcha` only checks that the length is 6. The text is
  normalised earlier, in `resolverCaptcha`.
- A value returned by the lookup stage always has a non-empty session, so
  the "Can not get session id" branch at KiemTraPhatNguoiExecute.ts:142 is unreachable.
- `parseFinesUrl` never resolves to `undefined`, so the page stage never
  throws. This rests on parser exceptions being left out (see "## Left out"). `checkFines` rejects only through the lookup stage
  (`CheckFinesRejectsOnlyFromLookup`).
- `isValidFinesUrl` is a plain prefix test on `https://www.csgt.vn`, so it
  does not fix the host: `https://www.csgt.vn.evil.example/x` and
  `https://www.csgt.vn@evil.example/x` pass, and `parseFinesUrl` sends the
  `PHPSESSID` cookie to such a URL.

## Model

| member | source | states |
|---|---|---|
| JsString.Trim | nodes/KiemTraPhatNguoiNode/utils.ts:125 | `trim` returns a string no longer than its input that does not start or end with white space |
| JsString.TrimParts | nodes/KiemTraPhatNguoiNode/utils.ts:125 | `trim` returns a slice: the input is a blank head, the trimmed text and a blank tail, in that order |
| JsString.TrimEmptyIffBlank | nodes/KiemTraPhatNguoiNode/KiemTraPhatNguoiExecute.ts:86 | a piece trims to the empty string exactly when it consists only of white space |
| JsString.JoinSplit | nodes/KiemTraPhatNguoiNode/KiemTraPhatNguoiExecute.ts:86 | splitting on the separator loses nothing: joining the pieces with it gives back the markup |
| JsString.SplitHead | nodes/KiemTraPhatNguoiNode/utils.ts:9-10 | the first piece of a split is the prefix before the first separator occurrence, and the separator follows it unless the piece is the whole string |
| JsString.SplitTail | nodes/KiemTraPhatNguoiNode/KiemTraPhatNguoiExecute.ts:86 | the pieces after the first are the split of the text after the first separator occurrence, so with SplitHead every piece is fixed |
| JsString.IncludesTrim | nodes/KiemTraPhatNguoiNode/KiemTraPhatNguoiExecute.ts:81 | trimming the container text cannot break an occurrence of a phrase that has no white space at its ends |
| JsString.IncludesToLower | nodes/KiemTraPhatNguoiNode/KiemTraPhatNguoiExecute.ts:81 | lower-casing both sides keeps an occurrence |
| Utils.StripNonAlnum | nodes/KiemTraPhatNguoiNode/utils.ts:117 | the regex replace leaves only ASCII letters and digits and never lengthens the string |
| Utils.StripNonAlnumIsSubsequence | nodes/KiemTraPhatNguoiNode/utils.ts:117 | the result is the input with characters deleted, with the order and case of the rest kept |
| Utils.StripNonAlnumCounts | nodes/KiemTraPhatNguoiNode/utils.ts:117 | every letter or digit is kept as often as it occurs, and nothing else is kept; with the subsequence lemma this fixes the result |
| Utils.StripNonAlnumConcat | nodes/KiemTraPhatNguoiNode/utils.ts:117 | the global replace acts character by character: cleaning distributes over concatenation |
| Utils.StripKeepsAlnumString | nodes/KiemTraPhatNguoiNode/utils.ts:117 | a string of letters and digits is left unchanged |
| Utils.CleanPlate | nodes/KiemTraPhatNguoiNode/utils.ts:117 | the cleaned plate holds only letters and digits, is a subsequence of the plate, and keeps every letter and digit with its case |
| Utils.CleanPlateIdempotent | nodes/KiemTraPhatNguoiNode/utils.ts:117 | cleaning twice equals cleaning once |
| Utils.DetectVehicleType | nodes/KiemTraPhatNguoiNode/utils.ts:119 | code "1" exactly when the plate has 8 characters, "2" exactly otherwise |
| Utils.IsValidCaptcha | nodes/KiemTraPhatNguoiNode/utils.ts:121 | true exactly for texts of length 6 |
| Utils.CleanCaptcha | nodes/KiemTraPhatNguoiNode/utils.ts:123-127 | the normalised text holds only lower-case ASCII letters and digits and is no longer than the input |
| Utils.CleanCaptchaIgnoresTrim | nodes/KiemTraPhatNguoiNode/utils.ts:123-127 | the trim changes nothing: normalising equals lower-casing then stripping |
| Utils.CleanCaptchaIdempotent | nodes/KiemTraPhatNguoiNode/utils.ts:123-127 | normalising twice equals normalising once |
| Utils.CleanCaptchaExample | nodes/KiemTraPhatNguoiNode/utils.ts:121-127 | "AB12C3" normalises to "ab12c3", which passes the length check |
| Utils.IsValidFinesUrl | nodes/KiemTraPhatNguoiNode/utils.ts:129 | true exactly when the URL starts with `https://www.csgt.vn` |
| Utils.PrefixAcceptsOtherHosts | nodes/KiemTraPhatNguoiNode/utils.ts:129 | the prefix test accepts URLs whose host is not `www.csgt.vn` (a longer host name, or the prefix as user information before `@`) |
| Utils.CookiePair | nodes/KiemTraPhatNguoiNode/utils.ts:9-10 | the pair is the header's prefix before the first `;`, holds no `;`, and is followed by `;` unless it is the whole header |
| Utils.FindCookie | nodes/KiemTraPhatNguoiNode/utils.ts:7-15 | the loop returns a pair starting with `name=` without `;`, and returns null exactly when no string header names the cookie |
| Utils.GetCookieValue | nodes/KiemTraPhatNguoiNode/utils.ts:4-16 | the result starts with `name=` and holds no `;`; null exactly when no string header qualifies, non-strings being skipped |
| Utils.GetCookieValueFirst | nodes/KiemTraPhatNguoiNode/utils.ts:5-13 | the result is the pair of the first qualifying header, and a single header behaves as a one-element list |
| RetryWrapper.Budget | nodes/KiemTraPhatNguoiNode/utils.ts:61-67 | the do-while loop allows `maxRetries` calls, and exactly one when `maxRetries < 1` |
| RetryWrapper.Fed | nodes/KiemTraPhatNguoiNode/utils.ts:42-57 | the validator sees `undefined` exactly when the call raised, and otherwise the returned value unchanged |
| RetryWrapper.RetryFrom | nodes/KiemTraPhatNguoiNode/utils.ts:41-67 | from call i on, the loop stops at the first non-rejected call, or after the rejected call that brings the counter to `maxRetries` |
| RetryWrapper.Retry | nodes/KiemTraPhatNguoiNode/utils.ts:20-70 | at most `max(maxRetries,1)` calls; all but the last were rejected; an accepted value is returned at once; a throwing validator escapes; exhaustion returns `undefined` after exactly the budget of calls; the sleep and hook follow every rejection, the last included; a returned value is always accepted |
| RetryWrapper.RetryLoop | nodes/KiemTraPhatNguoiNode/utils.ts:37-69 | the statement-by-statement do-while computes the same run as the functional model |
| RetryWrapper.RetryReadsOnlyCalledAttempts | nodes/KiemTraPhatNguoiNode/utils.ts:41-67 | only the outcomes of the calls actually made influence the run |
| FinesPage.AddBlockEffect | nodes/KiemTraPhatNguoiNode/KiemTraPhatNguoiExecute.ts:110-120 | one block sets at most its own positional field and the `resolvingUnit` array, and changes nothing else |
| FinesPage.AddBlockFields | nodes/KiemTraPhatNguoiNode/KiemTraPhatNguoiExecute.ts:113-116 | one block sets the field of its own position exactly when it has a non-empty value and the position is below 8, to that value, and leaves the other fields as they were |
| FinesPage.AddBlockUnits | nodes/KiemTraPhatNguoiNode/KiemTraPhatNguoiExecute.ts:113-120 | one block appends its text to `resolvingUnit` exactly when it has a value beyond the eighth position or has neither value nor label, creating the array on first use |
| FinesPage.LabelledEmptyBlockKeeps | nodes/KiemTraPhatNguoiNode/KiemTraPhatNguoiExecute.ts:113 | a block with a label but no value is skipped and leaves the record unchanged |
| FinesPage.BuildPrefix | nodes/KiemTraPhatNguoiNode/KiemTraPhatNguoiExecute.ts:108-121 | the inner loop only ever sets the eight fields and `resolvingUnit`, and `resolvingUnit` is always an array |
| FinesPage.BuildPrefixFields | nodes/KiemTraPhatNguoiNode/KiemTraPhatNguoiExecute.ts:108-121 | after the blocks, `KEYS[i]` is set exactly when block i exists with a non-empty value, and holds that value, with i counting every block, skipped ones included |
| FinesPage.BuildPrefixUnits | nodes/KiemTraPhatNguoiNode/KiemTraPhatNguoiExecute.ts:108-121 | after the blocks, `resolvingUnit` lists the texts of unlabelled empty blocks and of valued blocks beyond the eighth, in block order, and is absent when there are none |
| FinesPage.BuildRecord | nodes/KiemTraPhatNguoiNode/KiemTraPhatNguoiExecute.ts:90-121 | record keys are always among the eight fields plus `resolvingUnit` |
| FinesPage.LabelledEmptyBlockDropped | nodes/KiemTraPhatNguoiNode/KiemTraPhatNguoiExecute.ts:113 | a block with a label but an empty value contributes nothing: its content does not matter |
| FinesPage.FilterConcat | nodes/KiemTraPhatNguoiNode/KiemTraPhatNguoiExecute.ts:86 | `filter` decides piece by piece: filtering a concatenation is the concatenation of the filtered parts |
| FinesPage.NonBlankMembers | nodes/KiemTraPhatNguoiNode/KiemTraPhatNguoiExecute.ts:86 | every kept piece is a non-blank piece of the split, and every non-blank piece is kept |
| FinesPage.NonBlankSingle | nodes/KiemTraPhatNguoiNode/KiemTraPhatNguoiExecute.ts:86 | one piece is kept exactly when it is not blank |
| FinesPage.NonBlankConcat | nodes/KiemTraPhatNguoiNode/KiemTraPhatNguoiExecute.ts:86 | the non-blank filter distributes over concatenation; with the single-piece case this fixes the fragments, in order and with repetitions |
| FinesPage.CollectRecords | nodes/KiemTraPhatNguoiNode/KiemTraPhatNguoiExecute.ts:101-124 | the loop pushes exactly one record per fragment, in fragment order |
| FinesPage.ParseFinesPage | nodes/KiemTraPhatNguoiNode/KiemTraPhatNguoiExecute.ts:73-127 | no page or no container gives `{retry: true, data: []}`; the not-found phrase gives `{retry: false, data: []}`; otherwise one record per fragment, so `retry` is false even with zero fragments |
| FinesPage.NotFoundCaseInsensitive | nodes/KiemTraPhatNguoiNode/KiemTraPhatNguoiExecute.ts:81-82 | any spelling of the phrase that lower-cases to it, anywhere in the container text, is recognised |
| FinesPipeline.ResolveCaptcha | nodes/KiemTraPhatNguoiNode/KiemTraPhatNguoiExecute.ts:16-36 | a failed request or OCR failure raises; no image gives `null`; otherwise the session is what `getCookieValue` extracts for `PHPSESSID` from the response's `set-cookie` (a `PHPSESSID=` pair when present, `null` exactly when no header names it) and the text is `cleanCaptcha` of the OCR reading, so lower-case letters and digits |
| FinesPipeline.CaptchaCheck | nodes/KiemTraPhatNguoiNode/KiemTraPhatNguoiExecute.ts:41 | throws on `undefined` and `null`; accepts exactly a non-empty session with a 6-character text |
| FinesPipeline.CaptchaStageYieldsUsablePair | nodes/KiemTraPhatNguoiNode/KiemTraPhatNguoiExecute.ts:38-42 | a value returned by the CAPTCHA stage has a non-empty `PHPSESSID=` session and six lower-case letters or digits |
| FinesPipeline.GetFinesUrl | nodes/KiemTraPhatNguoiNode/KiemTraPhatNguoiExecute.ts:44-64 | the call raises exactly when its CAPTCHA stage yields no solved pair; otherwise it returns the lookup answer with that stage's session |
| FinesPipeline.FinesCheck | nodes/KiemTraPhatNguoiNode/KiemTraPhatNguoiExecute.ts:69 | throws on `undefined`; accepts exactly a non-empty session with a URL starting with `https://www.csgt.vn` |
| FinesPipeline.FinesStageCarriesSession | nodes/KiemTraPhatNguoiNode/KiemTraPhatNguoiExecute.ts:66-71 | a value returned by the lookup stage has a valid URL and a non-empty `PHPSESSID=` session |
| FinesPipeline.ParseCheck | nodes/KiemTraPhatNguoiNode/KiemTraPhatNguoiExecute.ts:132 | throws on `undefined`; accepts exactly a result with `retry` false |
| FinesPipeline.ParseStageNeverEscapes | nodes/KiemTraPhatNguoiNode/KiemTraPhatNguoiExecute.ts:73-134 | with parser exceptions left out, `parseFinesUrl` reports every failure as a `retry: true` object, never `undefined`, so the destructuring validator never throws and the page stage always finishes |
| FinesPipeline.FinesQuery | nodes/KiemTraPhatNguoiNode/KiemTraPhatNguoiExecute.ts:137-138 | the query uses the cleaned plate; a given vehicle type is kept; an empty one is inferred from the cleaned plate's length |
| FinesPipeline.Respond | nodes/KiemTraPhatNguoiNode/KiemTraPhatNguoiExecute.ts:140-148 | a stage escaping rejects; the URL error exactly when the lookup stage is exhausted; never the session error, since an accepted lookup value has a session; the data error exactly when the page stage is exhausted after a successful lookup; otherwise OK with the accepted page's records; every error envelope has empty data |
| FinesPipeline.CheckFines | nodes/KiemTraPhatNguoiNode/KiemTraPhatNguoiExecute.ts:136-149 | rejects exactly when the lookup stage escapes or the page stage escapes after it (the latter cannot happen, see ParseStageNeverEscapes); the URL error exactly when the lookup stage is exhausted; never the session error; the data error exactly when the page stage is exhausted after a successful lookup; otherwise OK with the accepted parse's records; every error envelope has empty data |
| FinesPipeline.CheckFinesRejectsOnlyFromLookup | nodes/KiemTraPhatNguoiNode/KiemTraPhatNguoiExecute.ts:136-149 | `checkFines` rejects exactly when the lookup stage lets an exception escape |
| FinesPipeline.CaptchaFailureEscapes | nodes/KiemTraPhatNguoiNode/KiemTraPhatNguoiExecute.ts:38-71 | the first lookup call's CAPTCHA stage yielding no solved pair makes `checkFines` reject |
| FinesPipeline.CaptchaRequestFailureEscapes | nodes/KiemTraPhatNguoiNode/KiemTraPhatNguoiExecute.ts:17-23 | one failed CAPTCHA image request makes `checkFines` reject |
| FinesPipeline.LookupWithoutUrlGivesUrlError | nodes/KiemTraPhatNguoiNode/KiemTraPhatNguoiExecute.ts:140-141 | when the lookup never answers with a URL, the envelope is the URL error with no data |
| FinesPipeline.NotFoundPageGivesEmptyOk | nodes/KiemTraPhatNguoiNode/KiemTraPhatNguoiExecute.ts:144-148 | after a successful lookup, a not-found first page gives an OK envelope with no records |

## Left out

- `request` (utils.ts:72-115) is axios I/O; its answers are the inputs listed above. `sleep` (utils.ts:18) is a timer; the model counts the sleeps in `retries` and ignores the delay.
- Logger calls and the `debug` option of `retryWrapper`: output only.
- The `args` shapes of `retryWrapper` (utils.ts:44-50): the operation's outcomes are given directly.
- `onRetryCallback` is counted, as `retries`, but not run. No call site passes one, so a failure of the hook itself is not modelled.
- The image download, `Buffer` conversion, `sharp` resize and tesseract OCR in `resolverCaptcha`: foreign calls, given as `CaptchaExchange` inputs.
- The POST body of `getFinesUrl` (form encoding, fixed client IP, cookie header; KiemTraPhatNguoiExecute.ts:46-62). The lookup answer is a function of the plate and vehicle type only.
- node-html-parser (`parse`, `querySelector`, `innerText`, `innerHTML`): the container, its text and markup, and the blocks of each fragment are inputs. Parser exceptions are not modelled, so the parse stage never raises.
- Unicode behaviour of `toLowerCase`: lower-casing is ASCII only (`trim` removes JavaScript's full white-space and line-terminator set). For example, upper-case Vietnamese letters in the not-found phrase, and the Kelvin sign that JavaScript lower-cases to `k`, are not folded.
- JavaScript dynamic typing: `maxRetries` is an integer (no NaN or fractions); `href` is a string or absent (a non-string `href` would make `startsWith` throw); an absent `vehicleType` is the empty string.
- `split` is modelled for non-empty separators only, the only kind the code passes.
- `KiemTraPhatNguoiNode.node.ts`: host-platform metadata and an execution loop that never calls `checkFines`.
- Property order of a record: JavaScript objects keep insertion order, and that order reaches the JSON envelope (for example `resolvingUnit` comes first when block 0 has neither label nor value). A record is modelled as an unordered `map`, so the model says which properties are present and what they hold, but not their order.
- String lengths: Dafny's `|s|` counts code points, while JavaScript's `.length` counts UTF-16 code units. The two agree on the ASCII-only strings `detectVehicleType` and `isValidCaptcha` receive (outputs of `cleanPlate` and `cleanCaptcha`), but differ for characters outside the Basic Multilingual Plane.

=== FILE: finespage.dfy ===
/**
  The page classification and record mapping of `parseFinesUrl`. HTML parsing
  is an input: a fetched page either has the `#bodyPrint123` container or not,
  the container contributes its `innerText` and `innerHTML`, and `blocksOf`
  gives, for one fragment of markup, its `.form-group` blocks with the trimmed
  texts of their `.col-md-3` label and `.col-md-9` value.
 */
module FinesPage {
  import opened Wrappers
  import opened JsString

  /** One `.form-group` element: trimmed label, trimmed value (`undefined` when the element is missing) and trimmed text. */
  datatype Block = Block(labelText: Option<string>, valueText: Option<string>, text: string)

  /** The `#bodyPrint123` element of a result page. */
  datatype Container = Container(innerText: string, innerHtml: string)

  /** A page fetch: nothing usable (`null` or an empty body), or a parsed page with or without the container. */
  datatype Page = Unavailable | Fetched(container: Option<Container>)

  /** A property of a violation record: one of the eight fields, or the `resolvingUnit` array. */
  datatype FieldValue = Field(text: string) | Units(texts: seq<string>)

  /** A violation record, as the JavaScript object built for one fragment. */
  type Record = map<string, FieldValue>

  /** What `parseFinesUrl` resolves to. */
  datatype ParseResult = ParseResult(retry: bool, data: seq<Record>)

  /** The eight record fields, in the order the blocks of a fragment fill them. */
  const Keys: seq<string> := [
    "plate", "plateColor", "vehicleType", "violationTime",
    "location", "violationType", "status", "detectingUnit"
  ]

  const ResolvingUnit: string := "resolvingUnit"

  /** The horizontal rule separating the violations of one result page. */
  const Separator: string := "<hr style=\"margin-bottom: 25px;\">"

  /** The phrase of a page that confirms there is no violation ("no result found"). */
  const NotFoundPhrase: string := "Không tìm thấy kết quả"

  /** The property names a record may have. */
  function RecordFields(): set<string> {
    (set k | k in Keys) + {ResolvingUnit}
  }

  lemma KeysDistinct()
    ensures forall i, j :: 0 <= i < j < |Keys| ==> Keys[i] != Keys[j]
    ensures ResolvingUnit !in Keys
  {
  }

  /** JavaScript truthiness of an optional string. */
  predicate Truthy(s: Option<string>) {
    s.Some? && s.value != ""
  }

  /**
    Block `idx` ends up in `resolvingUnit` when it has a value but no field is
    left for its position, or when it has neither a value nor a label.
   */
  predicate GoesToResolvingUnit(b: Block, idx: nat) {
    if Truthy(b.valueText) then idx >= |Keys| else !Truthy(b.labelText)
  }

  /** The texts of the blocks among the first `n` that go to `resolvingUnit`, in block order. */
  function ExtraTexts(blocks: seq<Block>, n: nat): seq<string>
    requires n <= |blocks|
  {
    if n == 0 then []
    else ExtraTexts(blocks, n - 1) + (if GoesToResolvingUnit(blocks[n - 1], n - 1) then [blocks[n - 1].text] else [])
  }

  /** `item['resolvingUnit'] ||= []`: the array so far, empty when the property is absent. */
  function ResolvingUnits(item: Record): seq<string> {
    if ResolvingUnit in item && item[ResolvingUnit].Units? then item[ResolvingUnit].texts else []
  }

  /** One iteration of the inner loop over the blocks of a fragment. */
  function AddBlock(item: Record, b: Block, idx: nat): Record {
    if !Truthy(b.valueText) && Truthy(b.labelText) then item
    else if Truthy(b.valueText) && idx < |Keys| then item[Keys[idx] := Field(b.valueText.value)]
    else item[ResolvingUnit := Units(ResolvingUnits(item) + [b.text])]
  }

  /** The record after the first `n` blocks: only the eight fields and `resolvingUnit` are ever set. */
  function BuildPrefix(blocks: seq<Block>, n: nat): (r: Record)
    requires n <= |blocks|
    ensures r.Keys <= RecordFields()
    ensures ResolvingUnit in r ==> r[ResolvingUnit].Units?
  {
    if n == 0 then map[]
    else AddBlock(BuildPrefix(blocks, n - 1), blocks[n - 1], n - 1)
  }

  /**
    The fields of the record after the first `n` blocks: `Keys[i]` is present
    exactly when block `i` exists and has a non-empty value, and then holds
    that value. Positions count every block, dropped ones included.
   */
  lemma {:induction false} BuildPrefixFields(blocks: seq<Block>, n: nat)
    requires n <= |blocks|
    ensures forall i :: 0 <= i < |Keys| ==> (Keys[i] in BuildPrefix(blocks, n) <==> i < n && Truthy(blocks[i].valueText))
    ensures forall i :: 0 <= i < |Keys| && i < n && Truthy(blocks[i].valueText) ==>
      BuildPrefix(blocks, n)[Keys[i]] == Field(blocks[i].valueText.value)
  {
    if n > 0 {
      BuildPrefixFields(blocks, n - 1);
      AddBlockFields(BuildPrefix(blocks, n - 1), blocks[n - 1], n - 1);
    }
  }

  /**
    The `resolvingUnit` array after the first `n` blocks: present exactly when
    some block went there, and listing their texts in block order.
   */
  lemma {:induction false} BuildPrefixUnits(blocks: seq<Block>, n: nat)
    requires n <= |blocks|
    ensures ResolvingUnit in BuildPrefix(blocks, n) <==> ExtraTexts(blocks, n) != []
    ensures ResolvingUnits(BuildPrefix(blocks, n)) == ExtraTexts(blocks, n)
  {
    if n > 0 {
      BuildPrefixUnits(blocks, n - 1);
      AddBlockUnits(BuildPrefix(blocks, n - 1), blocks[n - 1], n - 1);
    }
  }

  /** What one iteration of the inner loop does to the eight fields. */
  lemma AddBlockFields(item: Record, b: Block, idx: nat)
    ensures forall i :: 0 <= i < |Keys| ==>
      (Keys[i] in AddBlock(item, b, idx) <==> Keys[i] in item || (i == idx && Truthy(b.valueText)))
    ensures forall i :: 0 <= i < |Keys| && i != idx && Keys[i] in item ==> AddBlock(item, b, idx)[Keys[i]] == item[Keys[i]]
    ensures Truthy(b.valueText) && idx < |Keys| ==> AddBlock(item, b, idx)[Keys[idx]] == Field(b.valueText.value)
  {
    KeysDistinct();
  }

  /** What one iteration of the inner loop does to the `resolvingUnit` array. */
  lemma AddBlockUnits(item: Record, b: Block, idx: nat)
    requires ResolvingUnit in item ==> item[ResolvingUnit].Units?
    ensures ResolvingUnit in AddBlock(item, b, idx) <==> ResolvingUnit in item || GoesToResolvingUnit(b, idx)
    ensures ResolvingUnits(AddBlock(item, b, idx)) == ResolvingUnits(item) + if GoesToResolvingUnit(b, idx) then [b.text] else []
  {
    KeysDistinct();
  }

  /** One iteration of the inner loop sets at most its own field and `resolvingUnit`, and changes nothing else. */
  lemma AddBlockEffect(item: Record, b: Block, idx: nat)
    ensures var r := AddBlock(item, b, idx);
      && r.Keys == item.Keys + (if Truthy(b.valueText) && idx < |Keys| then {Keys[idx]} else {})
                             + (if GoesToResolvingUnit(b, idx) then {ResolvingUnit} else {})
      && (forall k :: k in item && k != ResolvingUnit && !(Truthy(b.valueText) && idx < |Keys| && k == Keys[idx]) ==> r[k] == item[k])
  {
  }

  /** The record built from all the blocks of one fragment. */
  function BuildRecord(blocks: seq<Block>): (r: Record)
    ensures r.Keys <= RecordFields()
  {
    BuildPrefix(blocks, |blocks|)
  }

  /** A block with an empty value but a label contributes nothing to its record. */
  lemma {:induction false} LabelledEmptyBlockDropped(blocks: seq<Block>, k: nat)
    requires k < |blocks| && !Truthy(blocks[k].valueText) && Truthy(blocks[k].labelText)
    ensures BuildRecord(blocks) == BuildRecord(blocks[..k] + [blocks[k].(labelText := Some("-"), valueText := Some(""))] + blocks[k + 1..])
    ensures BuildPrefix(blocks, k + 1) == BuildPrefix(blocks, k)
  {
    var other := blocks[..k] + [blocks[k].(labelText := Some("-"), valueText := Some(""))] + blocks[k + 1..];
    PrefixAgree(blocks, other, k, |blocks|);
  }

  /** Two block lists that agree except at a dropped position build the same record. */
  lemma {:induction false} PrefixAgree(a: seq<Block>, b: seq<Block>, k: nat, n: nat)
    requires |a| == |b| && k < |a| && n <= |a|
    requires forall j :: 0 <= j < |a| && j != k ==> a[j] == b[j]
    requires !Truthy(a[k].valueText) && Truthy(a[k].labelText) && !Truthy(b[k].valueText) && Truthy(b[k].labelText)
    ensures BuildPrefix(a, n) == BuildPrefix(b, n)
  {
    if n > 0 {
      PrefixAgree(a, b, k, n - 1);
      BuildPrefixStep(a, n);
      BuildPrefixStep(b, n);
      if n - 1 == k {
        LabelledEmptyBlockKeeps(BuildPrefix(a, k), a[k], k);
        LabelledEmptyBlockKeeps(BuildPrefix(b, k), b[k], k);
      } else {
        assert a[n - 1] == b[n - 1];
      }
    }
  }

  lemma BuildPrefixStep(blocks: seq<Block>, n: nat)
    requires 0 < n <= |blocks|
    ensures BuildPrefix(blocks, n) == AddBlock(BuildPrefix(blocks, n - 1), blocks[n - 1], n - 1)
  {
  }

  /** `if (!value && label) continue`: a labelled block without a value leaves the record as it was. */
  lemma LabelledEmptyBlockKeeps(item: Record, b: Block, idx: nat)
    requires !Truthy(b.valueText) && Truthy(b.labelText)
    ensures AddBlock(item, b, idx) == item
  {
  }

  /** `pieces.filter(keep)`: the pieces `keep` accepts, in order. */
  function Filter(pieces: seq<string>, keep: string -> bool): (r: seq<string>)
    ensures |r| <= |pieces|
  {
    if pieces == [] then []
    else (if keep(pieces[0]) then [pieces[0]] else []) + Filter(pieces[1..], keep)
  }

  lemma FilterCons(p: string, rest: seq<string>, keep: string -> bool)
    ensures Filter([p] + rest, keep) == (if keep(p) then [p] else []) + Filter(rest, keep)
  {
    assert ([p] + rest)[1..] == rest;
  }

  /** A filter works piece by piece: it distributes over concatenation, so order and repetitions are kept. */
  lemma {:induction false} FilterConcat(a: seq<string>, b: seq<string>, keep: string -> bool)
    ensures Filter(a + b, keep) == Filter(a, keep) + Filter(b, keep)
    decreases |a|
  {
    if a == [] {
      assert a + b == b;
    } else {
      var p, rest := a[0], a[1..];
      FilterConcat(rest, b, keep);
      assert a == [p] + rest;
      assert a + b == [p] + (rest + b);
      FilterCons(p, rest + b, keep);
      FilterCons(p, rest, keep);
      var k := if keep(p) then [p] else [];
      assert k + (Filter(rest, keep) + Filter(b, keep)) == (k + Filter(rest, keep)) + Filter(b, keep);
    }
  }

  /** `!!piece.trim()`: the piece does not trim to the empty string. */
  predicate TrimsNonEmpty(piece: string) {
    Trim(piece) != []
  }

  /** `pieces.filter((i) => !!i.trim())`: keep the pieces that are not blank, in order. */
  function NonBlank(pieces: seq<string>): (r: seq<string>)
    ensures |r| <= |pieces|
  {
    Filter(pieces, TrimsNonEmpty)
  }

  /** Every kept piece is a non-blank piece of the input, and every non-blank piece is kept. */
  lemma {:induction false} NonBlankMembers(pieces: seq<string>)
    ensures forall i :: 0 <= i < |NonBlank(pieces)| ==> !IsBlank(NonBlank(pieces)[i]) && NonBlank(pieces)[i] in pieces
    ensures forall i :: 0 <= i < |pieces| && !IsBlank(pieces[i]) ==> pieces[i] in NonBlank(pieces)
    decreases |pieces|
  {
    if pieces != [] {
      TrimEmptyIffBlank(pieces[0]);
      NonBlankMembers(pieces[1..]);
      assert NonBlank(pieces) == (if TrimsNonEmpty(pieces[0]) then [pieces[0]] else []) + NonBlank(pieces[1..]);
      assert forall i :: 1 <= i < |pieces| ==> pieces[i] == pieces[1..][i - 1];
    }
  }

  /** A single piece is kept exactly when it is not blank. */
  lemma NonBlankSingle(p: string)
    ensures NonBlank([p]) == if IsBlank(p) then [] else [p]
  {
    TrimEmptyIffBlank(p);
    FilterCons(p, [], TrimsNonEmpty);
    assert [p] + [] == [p];
  }

  /** The non-blank filter distributes over concatenation: with `NonBlankSingle` this fixes its result, order and repetitions included. */
  lemma NonBlankConcat(a: seq<string>, b: seq<string>)
    ensures NonBlank(a + b) == NonBlank(a) + NonBlank(b)
  {
    FilterConcat(a, b, TrimsNonEmpty);
  }

  /** The per-violation fragments of the container markup. */
  function Fragments(html: string): seq<string> {
    NonBlank(Split(html, Separator))
  }

  /** The outer loop: one record pushed per fragment, in fragment order. */
  function CollectRecords(fragments: seq<string>, blocksOf: string -> seq<Block>, n: nat): (data: seq<Record>)
    requires n <= |fragments|
    ensures |data| == n
    ensures forall i :: 0 <= i < n ==> data[i] == BuildRecord(blocksOf(fragments[i]))
  {
    if n == 0 then []
    else CollectRecords(fragments, blocksOf, n - 1) + [BuildRecord(blocksOf(fragments[n - 1]))]
  }

  /** The container text, trimmed and lower-cased, contains the lower-cased "no result" phrase. */
  predicate ShowsNotFound(innerText: string) {
    Includes(ToLower(Trim(innerText)), ToLower(NotFoundPhrase))
  }

  /**
    `parseFinesUrl` on one fetched page. No page or no container asks for a
    retry; the "no result" phrase is a final empty answer; otherwise there is
    exactly one record per non-blank fragment, so the retry flag is false,
    also when there are no fragments at all.
   */
  function ParseFinesPage(page: Page, blocksOf: string -> seq<Block>): (r: ParseResult)
    ensures r.retry <==> page.Unavailable? || page.container.None?
    ensures r.retry ==> r.data == []
    ensures page.Fetched? && page.container.Some? && ShowsNotFound(page.container.value.innerText) ==>
      r == ParseResult(false, [])
    ensures page.Fetched? && page.container.Some? && !ShowsNotFound(page.container.value.innerText) ==>
      var fragments := Fragments(page.container.value.innerHtml);
      |r.data| == |fragments| && forall i :: 0 <= i < |fragments| ==> r.data[i] == BuildRecord(blocksOf(fragments[i]))
  {
    match page
    case Unavailable => ParseResult(true, [])
    case Fetched(None) => ParseResult(true, [])
    case Fetched(Some(c)) =>
      if ShowsNotFound(c.innerText) then ParseResult(false, [])
      else
        var wrappers := Fragments(c.innerHtml);
        var data := CollectRecords(wrappers, blocksOf, |wrappers|);
        ParseResult(|data| == 0 && |wrappers| > 0, data)
  }

  /** Any spelling of the phrase that lower-cases to it is recognised, wherever it stands in the container text. */
  lemma NotFoundCaseInsensitive(innerText: string, phrase: string)
    requires Includes(innerText, phrase) && ToLower(phrase) == ToLower(NotFoundPhrase)
    ensures ShowsNotFound(innerText)
  {
    var n := |phrase|;
    assert ToLowerChar(phrase[0]) == 'k';
    assert ToLowerChar(phrase[n - 1]) == NotFoundPhrase[|NotFoundPhrase| - 1];
    IncludesTrim(innerText, phrase);
    IncludesToLower(Trim(innerText), phrase);
  }
}

=== FILE: jsstring.dfy ===
/**
  The JavaScript string built-ins the lookup pipeline relies on: `trim` (with
  JavaScript's full white-space and line-terminator set), `toLowerCase` (on the
  ASCII range only), `startsWith`, `includes` and `split` with a non-empty
  string separator.
 */
module JsString {

  predicate IsAsciiLetter(c: char) {
    'a' <= c <= 'z' || 'A' <= c <= 'Z'
  }

  predicate IsAsciiDigit(c: char) {
    '0' <= c <= '9'
  }

  /** The characters the regular expression `/[a-z0-9]/i` matches. */
  predicate IsAsciiAlnum(c: char) {
    IsAsciiLetter(c) || IsAsciiDigit(c)
  }

  /** The characters `String.prototype.trim` removes (white space and line terminators). */
  predicate IsWhitespace(c: char) {
    c == ' ' || c == '\t' || c == '\n' || c == '\r' || c == '\U{000B}' || c == '\U{000C}'
    || c == '\U{00A0}' || c == '\U{1680}' || ('\U{2000}' <= c <= '\U{200A}')
    || c == '\U{2028}' || c == '\U{2029}' || c == '\U{202F}' || c == '\U{205F}'
    || c == '\U{3000}' || c == '\U{FEFF}'
  }

  /** `toLowerCase` on one character, for the ASCII range only. */
  function ToLowerChar(c: char): (d: char)
    ensures IsAsciiLetter(c) ==> 'a' <= d <= 'z' && (d == c || d as int == c as int + 32)
    ensures !('A' <= c <= 'Z') ==> d == c
  {
    if 'A' <= c <= 'Z' then (c as int + 32) as char else c
  }

  function ToLower(s: string): (r: string)
    ensures |r| == |s|
    ensures forall i :: 0 <= i < |s| ==> r[i] == ToLowerChar(s[i])
  {
    seq(|s|, i requires 0 <= i < |s| => ToLowerChar(s[i]))
  }

  lemma ToLowerConcat(a: string, b: string)
    ensures ToLower(a + b) == ToLower(a) + ToLower(b)
  {
  }

  /** Number of white-space characters at the start of `s`. */
  function LeadingSpace(s: string): (n: nat)
    ensures n <= |s|
    ensures forall k :: 0 <= k < n ==> IsWhitespace(s[k])
    ensures n < |s| ==> !IsWhitespace(s[n])
  {
    if |s| > 0 && IsWhitespace(s[0]) then 1 + LeadingSpace(s[1..]) else 0
  }

  /** Number of white-space characters at the end of `s`. */
  function TrailingSpace(s: string): (n: nat)
    ensures n <= |s|
    ensures forall k :: |s| - n <= k < |s| ==> IsWhitespace(s[k])
    ensures n < |s| ==> !IsWhitespace(s[|s| - n - 1])
  {
    if |s| > 0 && IsWhitespace(s[|s| - 1]) then 1 + TrailingSpace(s[..|s| - 1]) else 0
  }

  /** `String.prototype.trim`. */
  function Trim(s: string): (r: string)
    ensures |r| <= |s|
    ensures r != [] ==> !IsWhitespace(r[0]) && !IsWhitespace(r[|r| - 1])
  {
    var t := s[LeadingSpace(s)..];
    t[..|t| - TrailingSpace(t)]
  }

  /** A string that `trim` turns into the empty string. */
  predicate IsBlank(s: string) {
    forall k :: 0 <= k < |s| ==> IsWhitespace(s[k])
  }

  lemma TrimEmptyIffBlank(s: string)
    ensures Trim(s) == [] <==> IsBlank(s)
  {
    var a := LeadingSpace(s);
    var t := s[a..];
    if a < |s| {
      assert !IsWhitespace(t[0]);
      assert TrailingSpace(t) < |t|;
    }
  }

  /** `s.startsWith(p)`. */
  predicate StartsWith(s: string, p: string) {
    |p| <= |s| && s[..|p|] == p
  }

  /** `p` occurs in `s` starting at position `i`. */
  predicate OccursAt(s: string, p: string, i: nat) {
    i + |p| <= |s| && s[i..i + |p|] == p
  }

  /** `s.includes(p)`: `p` occurs in `s` at some position. */
  predicate Includes(s: string, p: string) {
    exists i: nat | i <= |s| :: OccursAt(s, p, i)
  }

  /**
    `s.split(sep)` for a non-empty separator: the pieces between the
    occurrences of `sep`, found left to right without overlap.
   */
  function Split(s: string, sep: string): (parts: seq<string>)
    requires |sep| > 0
    ensures |parts| >= 1
    decreases |s|
  {
    if |s| < |sep| then [s]
    else if s[..|sep|] == sep then [[]] + Split(s[|sep|..], sep)
    else
      var rest := Split(s[1..], sep);
      [[s[0]] + rest[0]] + rest[1..]
  }

  /** `parts.join(sep)`. */
  function Join(parts: seq<string>, sep: string): string
    requires |parts| >= 1
  {
    if |parts| == 1 then parts[0] else parts[0] + sep + Join(parts[1..], sep)
  }

  /** Joining the pieces of a split with the same separator gives back the string. */
  lemma {:induction false} JoinSplit(s: string, sep: string)
    requires |sep| > 0
    ensures Join(Split(s, sep), sep) == s
    decreases |s|
  {
    if |s| < |sep| {
    } else if s[..|sep|] == sep {
      JoinSplit(s[|sep|..], sep);
      var rest := Split(s[|sep|..], sep);
      assert Split(s, sep) == [[]] + rest;
      assert ([[]] + rest)[1..] == rest;
      assert s == sep + s[|sep|..];
    } else {
      JoinSplit(s[1..], sep);
      var rest := Split(s[1..], sep);
      var parts := [[s[0]] + rest[0]] + rest[1..];
      assert Split(s, sep) == parts;
      if |rest| == 1 {
        assert parts == [[s[0]] + rest[0]];
        assert s == [s[0]] + s[1..];
      } else {
        assert parts[1..] == rest[1..];
        assert Join(rest, sep) == rest[0] + sep + Join(rest[1..], sep);
        assert s == [s[0]] + s[1..];
      }
    }
  }

  /**
    The first piece of a split is the text before the first occurrence of the
    separator: a prefix of `s` in which no occurrence starts, followed in `s`
    by the separator unless it is all of `s`.
   */
  lemma {:induction false} SplitHead(s: string, sep: string)
    requires |sep| > 0
    ensures StartsWith(s, Split(s, sep)[0])
    ensures forall i: nat :: i < |Split(s, sep)[0]| ==> !OccursAt(s, sep, i)
    ensures |Split(s, sep)[0]| < |s| ==> StartsWith(s[|Split(s, sep)[0]|..], sep)
    decreases |s|
  {
    if |s| < |sep| {
    } else if s[..|sep|] == sep {
    } else {
      var t := s[1..];
      SplitHead(t, sep);
      var h' := Split(t, sep)[0];
      assert Split(s, sep)[0] == [s[0]] + h';
      StartsWithCons(s, h');
      NoOccurrenceBeforeCons(s, sep, |h'|);
      DropCons(s, |h'|);
    }
  }

  /**
    The pieces after the first are the split of what follows the first
    occurrence of the separator; with `SplitHead` this fixes every piece.
   */
  lemma {:induction false} SplitTail(s: string, sep: string)
    requires |sep| > 0
    ensures var parts := Split(s, sep);
      |parts| > 1 ==>
        |parts[0]| + |sep| <= |s| && parts[1..] == Split(s[|parts[0]| + |sep|..], sep)
    decreases |s|
  {
    if |s| < |sep| {
    } else if s[..|sep|] == sep {
      assert Split(s, sep)[1..] == Split(s[|sep|..], sep);
    } else {
      var t := s[1..];
      SplitTail(t, sep);
      var rest := Split(t, sep);
      var parts := [[s[0]] + rest[0]] + rest[1..];
      assert Split(s, sep) == parts;
      if |parts| > 1 {
        assert parts[1..] == rest[1..];
        assert s[1 + |rest[0]| + |sep|..] == t[|rest[0]| + |sep|..];
      }
    }
  }

  /** A prefix of the tail, with the first character put back, is a prefix. */
  lemma StartsWithCons(s: string, h: string)
    requires |s| > 0 && StartsWith(s[1..], h)
    ensures StartsWith(s, [s[0]] + h)
  {
    assert s[..|h| + 1] == [s[0]] + s[1..][..|h|];
  }

  lemma DropCons(s: string, m: nat)
    requires m < |s|
    ensures s[m + 1..] == s[1..][m..]
  {
  }

  /** No occurrence starts in the first `m + 1` positions when none starts at 0 nor in the first `m` positions of the tail. */
  lemma NoOccurrenceBeforeCons(s: string, sep: string, m: nat)
    requires |s| >= |sep| > 0 && s[..|sep|] != sep
    requires forall i: nat :: i < m ==> !OccursAt(s[1..], sep, i)
    ensures forall i: nat :: i < m + 1 ==> !OccursAt(s, sep, i)
  {
    forall i: nat | i < m + 1
      ensures !OccursAt(s, sep, i)
    {
      if i == 0 {
        assert s[..|sep|] == s[0..|sep|];
      } else {
        OccursAtTail(s, sep, i - 1);
      }
    }
  }

  /** An occurrence in the tail of `s` is an occurrence in `s`, one position later. */
  lemma OccursAtTail(s: string, p: string, i: nat)
    requires |s| > 0
    ensures OccursAt(s, p, i + 1) <==> OccursAt(s[1..], p, i)
  {
    if i + 1 + |p| <= |s| {
      assert s[i + 1..i + 1 + |p|] == s[1..][i..i + |p|];
    }
  }

  /** `s` is its trimmed text between two blank strings. */
  lemma TrimParts(s: string) returns (head: string, tail: string)
    ensures s == head + Trim(s) + tail
    ensures IsBlank(head) && IsBlank(tail)
  {
    var a := LeadingSpace(s);
    var t := s[a..];
    var e := |t| - TrailingSpace(t);
    head, tail := s[..a], t[e..];
    assert IsBlank(head) by {
      BlankSlice(s, 0, a);
      assert s[0..a] == head;
    }
    assert IsBlank(tail) by {
      BlankSlice(t, e, |t|);
    }
    assert Trim(s) == t[..e];
    assert s == head + t[..e] + tail by {
      Reassemble(s, a, e);
    }
  }

  /** A slice whose characters are all white space is blank. */
  lemma BlankSlice(s: string, i: nat, j: nat)
    requires i <= j <= |s|
    requires forall k :: i <= k < j ==> IsWhitespace(s[k])
    ensures IsBlank(s[i..j])
  {
    assert forall k :: 0 <= k < j - i ==> s[i..j][k] == s[i + k];
  }

  lemma Reassemble(s: string, a: nat, e: nat)
    requires a <= |s| && e <= |s| - a
    ensures s == s[..a] + s[a..][..e] + s[a..][e..]
  {
    assert s[a..] == s[a..][..e] + s[a..][e..];
    assert s == s[..a] + s[a..];
  }

  /** Lower-casing both sides keeps an occurrence where it was. */
  lemma IncludesToLower(s: string, p: string)
    requires Includes(s, p)
    ensures Includes(ToLower(s), ToLower(p))
  {
    var i: nat :| i <= |s| && OccursAt(s, p, i);
    assert ToLower(s)[i..i + |p|] == ToLower(p);
    assert OccursAt(ToLower(s), ToLower(p), i);
  }

  /**
    Trimming cannot cut into an occurrence of a phrase that neither starts nor
    ends with white space.
   */
  lemma IncludesTrim(s: string, p: string)
    requires p != [] && !IsWhitespace(p[0]) && !IsWhitespace(p[|p| - 1])
    requires Includes(s, p)
    ensures Includes(Trim(s), p)
  {
    IncludesTrimStart(s, p);
    IncludesTrimEnd(s[LeadingSpace(s)..], p);
  }

  lemma IncludesTrimStart(s: string, p: string)
    requires p != [] && !IsWhitespace(p[0])
    requires Includes(s, p)
    ensures Includes(s[LeadingSpace(s)..], p)
  {
    var i := Occurrence(s, p);
    var a := LeadingSpace(s);
    assert a <= i by {
      OccursAtEnds(s, p, i);
      LeadingSpaceBound(s, i);
    }
    OccursInSuffix(s, p, i, a);
  }

  lemma IncludesTrimEnd(t: string, p: string)
    requires p != [] && !IsWhitespace(p[|p| - 1])
    requires Includes(t, p)
    ensures Includes(t[..|t| - TrailingSpace(t)], p)
  {
    var i := Occurrence(t, p);
    var e := |t| - TrailingSpace(t);
    assert i + |p| <= e by {
      OccursAtEnds(t, p, i);
      TrailingSpaceBound(t, i + |p| - 1);
    }
    OccursInPrefix(t, p, i, e);
  }

  /** The first and last characters of an occurrence are those of the phrase. */
  lemma OccursAtEnds(s: string, p: string, i: nat)
    requires p != [] && OccursAt(s, p, i)
    ensures s[i] == p[0] && s[i + |p| - 1] == p[|p| - 1]
  {
    assert s[i] == s[i..i + |p|][0];
    assert s[i + |p| - 1] == s[i..i + |p|][|p| - 1];
  }

  /** An occurrence that starts at or after `a` is also one in `s[a..]`. */
  lemma OccursInSuffix(s: string, p: string, i: nat, a: nat)
    requires OccursAt(s, p, i) && a <= i
    ensures Includes(s[a..], p)
  {
    assert s[a..][i - a..i - a + |p|] == s[i..i + |p|];
    assert OccursAt(s[a..], p, i - a);
  }

  /** An occurrence that ends at or before `e` is also one in `s[..e]`. */
  lemma OccursInPrefix(s: string, p: string, i: nat, e: nat)
    requires OccursAt(s, p, i) && i + |p| <= e <= |s|
    ensures Includes(s[..e], p)
  {
    assert s[..e][i..i + |p|] == s[i..i + |p|];
    assert OccursAt(s[..e], p, i);
  }

  /** A position where `p` occurs in `s`, when `s.includes(p)`. */
  lemma Occurrence(s: string, p: string) returns (i: nat)
    requires Includes(s, p)
    ensures i <= |s| && OccursAt(s, p, i)
  {
    i :| i <= |s| && OccursAt(s, p, i);
  }

  /** The leading white space ends at or before any other character. */
  lemma LeadingSpaceBound(s: string, j: nat)
    requires j < |s| && !IsWhitespace(s[j])
    ensures LeadingSpace(s) <= j
  {
  }

  /** The trailing white space starts after any other character. */
  lemma TrailingSpaceBound(s: string, j: nat)
    requires j < |s| && !IsWhitespace(s[j])
    ensures j < |s| - TrailingSpace(s)
  {
  }
}

=== FILE: pipeline.dfy ===
/**
  The decision logic of `KiemTraPhatNguoiExecute.ts`: the value one CAPTCHA
  attempt produces, the validators of the three retried stages, how a lookup
  attempt depends on its CAPTCHA stage, and how `checkFines` maps the stage
  outcomes onto its response envelope. Network answers, image decoding and
  OCR are inputs.
 */
module FinesPipeline {
  import opened Wrappers
  import opened JsString
  import opened Utils
  import opened RetryWrapper
  import opened FinesPage

  /** Name of the session cookie set by the CAPTCHA endpoint. */
  const SessionCookie: string := "PHPSESSID"

  const UrlMessage: string := "Can not get fines url"
  const SessionMessage: string := "Can not get session id"
  const DataMessage: string := "Can not get fines data"
  const OkMessage: string := "OK"

  /** The answer of the CAPTCHA endpoint: its `set-cookie` header and whether `response.data` is truthy. */
  datatype CaptchaResponse = CaptchaResponse(setCookie: Cookies, hasImage: bool)

  /**
    What one call of `resolverCaptcha` meets: the endpoint's answer (`None`
    when the request failed) and the text OCR read from the image (`None` when
    resizing or recognition raised).
   */
  datatype CaptchaExchange = CaptchaExchange(response: Option<CaptchaResponse>, ocrText: Option<string>)

  /** What `resolverCaptcha` returns: `null` when there was no image, else the session cookie and the normalised text. */
  datatype CaptchaValue = NoImage | Solved(sessionId: Option<string>, captcha: string)

  /** What `getFinesUrl` returns: the `href` of the lookup answer and the session it used. */
  datatype FinesValue = FinesValue(url: Option<string>, sessionId: Option<string>)

  /** The plate and vehicle-type code a lookup is made for. */
  datatype Query = Query(plate: string, vehicleType: string)

  /**
    One call of `getFinesUrl`: the CAPTCHA exchanges its own CAPTCHA stage
    meets, and the `href` the lookup endpoint answers for a query (`None` when
    the request failed or the answer had none).
   */
  datatype FinesCall = FinesCall(exchanges: seq<CaptchaExchange>, lookup: Query -> Option<string>)

  /** The response envelope of `checkFines`. */
  datatype Envelope = Envelope(error: bool, message: string, data: seq<Record>)

  /** `checkFines` resolves to an envelope, or rejects with an exception that escaped a validator. */
  datatype Outcome = Threw | Responded(envelope: Envelope)

  /**
    `resolverCaptcha`. A failed request makes the read of `response.headers`
    raise; a body without image data gives `null`; otherwise the value pairs
    the session cookie with the normalised OCR text.
   */
  function ResolveCaptcha(x: CaptchaExchange): (a: Attempt<CaptchaValue>)
    ensures a.Raised? <==> x.response.None? || (x.response.value.hasImage && x.ocrText.None?)
    ensures a == Returned(NoImage) <==> x.response.Some? && !x.response.value.hasImage
    ensures a.Returned? && a.value.Solved? ==>
      && (a.value.sessionId.Some? ==> StartsWith(a.value.sessionId.value, SessionCookie + "=") && ';' !in a.value.sessionId.value)
      && (forall i :: 0 <= i < |a.value.captcha| ==> IsLowerAlnum(a.value.captcha[i]))
    ensures a.Returned? && a.value.Solved? ==>
      && a.value.sessionId == GetCookieValue(x.response.value.setCookie, SessionCookie)
      && a.value.captcha == CleanCaptcha(x.ocrText.value)
  {
    match x.response
    case None => Raised
    case Some(resp) =>
      var sessionId := GetCookieValue(resp.setCookie, SessionCookie);
      if !resp.hasImage then Returned(NoImage)
      else
        match x.ocrText
        case None => Raised
        case Some(text) => Returned(Solved(sessionId, CleanCaptcha(text)))
  }

  /**
    Validator of `resolverCaptchaRetry`. It destructures its argument, so it
    throws on `undefined` (a raised attempt) and on `null` (no image); it
    accepts a non-empty session with a six-character text.
   */
  function CaptchaCheck(v: Option<CaptchaValue>): (verdict: Verdict)
    ensures verdict == Throws <==> v.None? || v.value.NoImage?
    ensures verdict == Accept <==> v.Some? && v.value.Solved? && Truthy(v.value.sessionId) && |v.value.captcha| == 6
  {
    match v
    case None => Throws
    case Some(NoImage) => Throws
    case Some(Solved(sessionId, captcha)) => if Truthy(sessionId) && IsValidCaptcha(captcha) then Accept else Reject
  }

  function CaptchaAttempts(exchanges: seq<CaptchaExchange>): (attempts: seq<Attempt<CaptchaValue>>)
    ensures |attempts| == |exchanges|
    ensures forall i :: 0 <= i < |exchanges| ==> attempts[i] == ResolveCaptcha(exchanges[i])
  {
    seq(|exchanges|, i requires 0 <= i < |exchanges| => ResolveCaptcha(exchanges[i]))
  }

  /** `resolverCaptchaRetry`: the retry wrapper with its default budget of five calls. */
  function CaptchaStage(exchanges: seq<CaptchaExchange>): RetryRun<CaptchaValue>
    requires |exchanges| >= Budget(DefaultMaxRetries)
  {
    Retry(CaptchaAttempts(exchanges), CaptchaCheck, DefaultMaxRetries)
  }

  /**
    A CAPTCHA stage that returns a value returns a usable pair: a
    `PHPSESSID=…` cookie pair and six lower-case letters or digits.
   */
  lemma CaptchaStageYieldsUsablePair(exchanges: seq<CaptchaExchange>)
    requires |exchanges| >= Budget(DefaultMaxRetries)
    requires CaptchaStage(exchanges).end.Finished? && CaptchaStage(exchanges).end.response.Some?
    ensures var v := CaptchaStage(exchanges).end.response.value;
      && v.Solved? && Truthy(v.sessionId)
      && StartsWith(v.sessionId.value, SessionCookie + "=")
      && |v.captcha| == 6
      && forall i :: 0 <= i < 6 ==> IsLowerAlnum(v.captcha[i])
  {
    var k := AcceptedCall(CaptchaAttempts(exchanges), CaptchaCheck, DefaultMaxRetries);
    assert ResolveCaptcha(exchanges[k]) == Returned(CaptchaStage(exchanges).end.response.value);
  }

  /**
    `getFinesUrl`. Destructuring the CAPTCHA stage's result raises when that
    stage escaped or returned `undefined`; otherwise the attempt returns the
    lookup answer for the query together with the CAPTCHA stage's session.
   */
  function GetFinesUrl(q: Query, call: FinesCall): (a: Attempt<FinesValue>)
    requires |call.exchanges| >= Budget(DefaultMaxRetries)
    ensures var stage := CaptchaStage(call.exchanges).end;
      a.Raised? <==> !(stage.Finished? && stage.response.Some? && stage.response.value.Solved?)
    ensures a.Returned? ==>
      a.value == FinesValue(call.lookup(q), CaptchaStage(call.exchanges).end.response.value.sessionId)
  {
    match CaptchaStage(call.exchanges).end
    case Escaped => Raised
    case Finished(None) => Raised
    case Finished(Some(NoImage)) => Raised
    case Finished(Some(Solved(sessionId, captcha))) => Returned(FinesValue(call.lookup(q), sessionId))
  }

  /**
    Validator of `getFinesUrlRetry`: throws on `undefined` (it destructures),
    accepts a non-empty session with a URL starting with `https://www.csgt.vn`.
   */
  function FinesCheck(v: Option<FinesValue>): (verdict: Verdict)
    ensures verdict == Throws <==> v.None?
    ensures verdict == Accept <==> v.Some? && Truthy(v.value.sessionId) && v.value.url.Some? && IsValidFinesUrl(v.value.url.value)
  {
    match v
    case None => Throws
    case Some(FinesValue(url, sessionId)) =>
      if Truthy(sessionId) && url.Some? && IsValidFinesUrl(url.value) then Accept else Reject
  }

  predicate WellFormedCalls(calls: seq<FinesCall>) {
    |calls| >= Budget(DefaultMaxRetries)
    && forall i :: 0 <= i < |calls| ==> |calls[i].exchanges| >= Budget(DefaultMaxRetries)
  }

  function FinesAttempts(q: Query, calls: seq<FinesCall>): (attempts: seq<Attempt<FinesValue>>)
    requires WellFormedCalls(calls)
    ensures |attempts| == |calls|
    ensures forall i :: 0 <= i < |calls| ==> attempts[i] == GetFinesUrl(q, calls[i])
  {
    seq(|calls|, i requires 0 <= i < |calls| => GetFinesUrl(q, calls[i]))
  }

  /** `getFinesUrlRetry` with its default budget of five calls. */
  function FinesStage(q: Query, calls: seq<FinesCall>): RetryRun<FinesValue>
    requires WellFormedCalls(calls)
  {
    Retry(FinesAttempts(q, calls), FinesCheck, DefaultMaxRetries)
  }

  /**
    A lookup stage that returns a value returns a URL starting with
    `https://www.csgt.vn` and the non-empty `PHPSESSID` cookie pair of an accepted CAPTCHA.
   */
  lemma FinesStageCarriesSession(q: Query, calls: seq<FinesCall>)
    requires WellFormedCalls(calls)
    requires FinesStage(q, calls).end.Finished? && FinesStage(q, calls).end.response.Some?
    ensures var v := FinesStage(q, calls).end.response.value;
      && v.url.Some? && IsValidFinesUrl(v.url.value)
      && v.sessionId.Some? && v.sessionId.value != ""
      && StartsWith(v.sessionId.value, SessionCookie + "=")
  {
    var k := AcceptedCall(FinesAttempts(q, calls), FinesCheck, DefaultMaxRetries);
    assert GetFinesUrl(q, calls[k]) == Returned(FinesStage(q, calls).end.response.value);
    CaptchaStageYieldsUsablePair(calls[k].exchanges);
  }

  /** Validator of `parseFinesUrlRetry`: throws on `undefined`, accepts a result whose retry flag is false. */
  function ParseCheck(v: Option<ParseResult>): (verdict: Verdict)
    ensures verdict == Throws <==> v.None?
    ensures verdict == Accept <==> v.Some? && !v.value.retry
  {
    match v
    case None => Throws
    case Some(result) => if !result.retry then Accept else Reject
  }

  /** The outcomes of the successive `parseFinesUrl` calls, one per page fetch. */
  function ParseAttempts(pages: seq<Page>, blocksOf: string -> seq<Block>): (attempts: seq<Attempt<ParseResult>>)
    ensures |attempts| == |pages|
    ensures forall i :: 0 <= i < |pages| ==> attempts[i] == Returned(ParseFinesPage(pages[i], blocksOf))
  {
    seq(|pages|, i requires 0 <= i < |pages| => Returned(ParseFinesPage(pages[i], blocksOf)))
  }

  /** `parseFinesUrlRetry` with its default budget of five calls. */
  function ParseStage(pages: seq<Page>, blocksOf: string -> seq<Block>): RetryRun<ParseResult>
    requires |pages| >= Budget(DefaultMaxRetries)
  {
    Retry(ParseAttempts(pages, blocksOf), ParseCheck, DefaultMaxRetries)
  }

  /**
    The page stage never rejects with an exception: `parseFinesUrl` reports
    its failures as `retry: true` results, never as `undefined`, so the
    destructuring validator never throws.
   */
  lemma ParseStageNeverEscapes(pages: seq<Page>, blocksOf: string -> seq<Block>)
    requires |pages| >= Budget(DefaultMaxRetries)
    ensures ParseStage(pages, blocksOf).end.Finished?
  {
    var run := ParseStage(pages, blocksOf);
    assert ParseAttempts(pages, blocksOf)[run.calls - 1].Returned?;
  }

  /**
    The query `checkFines` looks up: the plate is cleaned first, and the
    vehicle type, when not given, is inferred from the cleaned plate.
   */
  function FinesQuery(plate: string, vehicleType: string): (q: Query)
    ensures q.plate == CleanPlate(plate)
    ensures vehicleType != "" ==> q.vehicleType == vehicleType
    ensures vehicleType == "" ==> (q.vehicleType == CarType || q.vehicleType == MotorbikeType)
    ensures vehicleType == "" ==> (q.vehicleType == CarType <==> |CleanPlate(plate)| == 8)
  {
    var cleaned := CleanPlate(plate);
    Query(cleaned, if vehicleType == "" then DetectVehicleType(cleaned) else vehicleType)
  }

  /**
    The envelope `checkFines` answers with, given the ends of the lookup
    stage and of the page stage (the latter consulted only once a URL and a
    session are in hand). A retry stage only ever returns a value its
    validator accepted, which is what the two requirements say.
   */
  function Respond(fines: RetryEnd<FinesValue>, parsed: RetryEnd<ParseResult>): (r: Outcome)
    requires fines.Finished? && fines.response.Some? ==> FinesCheck(fines.response) == Accept
    requires parsed.Finished? && parsed.response.Some? ==> ParseCheck(parsed.response) == Accept
    ensures r.Threw? <==> fines.Escaped? || (fines.Finished? && fines.response.Some? && parsed.Escaped?)
    ensures r == Responded(Envelope(true, UrlMessage, [])) <==> fines == Finished(None)
    ensures r == Responded(Envelope(true, DataMessage, [])) <==> fines.Finished? && fines.response.Some? && parsed == Finished(None)
    ensures r.Responded? ==> r.envelope.message != SessionMessage
    ensures r.Responded? ==> (r.envelope.error <==> r.envelope.message != OkMessage)
    ensures r.Responded? && r.envelope.error ==> r.envelope.data == []
    ensures r.Responded? && r.envelope.error ==> r.envelope.message == UrlMessage || r.envelope.message == DataMessage
    ensures r.Responded? && !r.envelope.error ==>
      parsed.Finished? && parsed.response.Some? && !parsed.response.value.retry && r.envelope.data == parsed.response.value.data
  {
    match fines
    case Escaped => Threw
    case Finished(value) =>
      var url := if value.Some? then value.value.url else None;
      var sessionId := if value.Some? then value.value.sessionId else None;
      if !Truthy(url) then Responded(Envelope(true, UrlMessage, []))
      else if !Truthy(sessionId) then Responded(Envelope(true, SessionMessage, []))
      else
        match parsed
        case Escaped => Threw
        case Finished(None) => Responded(Envelope(true, DataMessage, []))
        case Finished(Some(result)) => Responded(Envelope(false, OkMessage, result.data))
  }

  /**
    `checkFines`. `calls` are what the successive `getFinesUrl` calls meet and
    `pages` what the successive result-page fetches return. An exception that
    escapes a stage's validator rejects the whole call. Every error envelope
    has empty data; the session-id error is never produced, because the
    lookup stage only returns values with a session; the URL error means the
    lookup stage was exhausted.
   */
  function CheckFines(plate: string, vehicleType: string, calls: seq<FinesCall>, pages: seq<Page>, blocksOf: string -> seq<Block>): (r: Outcome)
    requires WellFormedCalls(calls)
    requires |pages| >= Budget(DefaultMaxRetries)
    ensures var fines := FinesStage(FinesQuery(plate, vehicleType), calls).end;
      && (r.Threw? <==> fines.Escaped? || (fines.Finished? && fines.response.Some? && ParseStage(pages, blocksOf).end.Escaped?))
      && (r == Responded(Envelope(true, UrlMessage, [])) <==> fines == Finished(None))
      && (r == Responded(Envelope(true, DataMessage, [])) <==>
            fines.Finished? && fines.response.Some? && ParseStage(pages, blocksOf).end == Finished(None))
    ensures r.Responded? ==> r.envelope.message != SessionMessage
    ensures r.Responded? ==> (r.envelope.error <==> r.envelope.message != OkMessage)
    ensures r.Responded? && r.envelope.error ==> r.envelope.data == []
    ensures r.Responded? && !r.envelope.error ==>
      var parsed := ParseStage(pages, blocksOf).end;
      parsed.Finished? && parsed.response.Some? && !parsed.response.value.retry && r.envelope.data == parsed.response.value.data
  {
    Respond(FinesStage(FinesQuery(plate, vehicleType), calls).end, ParseStage(pages, blocksOf).end)
  }

  /**
    When the first lookup call's CAPTCHA stage yields no solved pair (its
    validator threw, or it ran out of attempts and returned `undefined`),
    `getFinesUrl` raises, the lookup validator then destructures `undefined`
    and throws, and `checkFines` rejects instead of answering with an
    envelope.
   */
  lemma CaptchaFailureEscapes(plate: string, vehicleType: string, calls: seq<FinesCall>, pages: seq<Page>, blocksOf: string -> seq<Block>)
    requires WellFormedCalls(calls)
    requires |pages| >= Budget(DefaultMaxRetries)
    requires var stage := CaptchaStage(calls[0].exchanges).end;
      !(stage.Finished? && stage.response.Some? && stage.response.value.Solved?)
    ensures CheckFines(plate, vehicleType, calls, pages, blocksOf) == Threw
  {
    var q := FinesQuery(plate, vehicleType);
    assert GetFinesUrl(q, calls[0]) == Raised;
    assert VerdictAt(FinesAttempts(q, calls), FinesCheck, 0) == Throws;
    assert FinesStage(q, calls).calls == 1;
  }

  /** A single failed CAPTCHA image request is enough: `checkFines` rejects. */
  lemma CaptchaRequestFailureEscapes(plate: string, vehicleType: string, calls: seq<FinesCall>, pages: seq<Page>, blocksOf: string -> seq<Block>)
    requires WellFormedCalls(calls)
    requires |pages| >= Budget(DefaultMaxRetries)
    requires calls[0].exchanges[0].response.None?
    ensures CheckFines(plate, vehicleType, calls, pages, blocksOf) == Threw
  {
    var attempts := CaptchaAttempts(calls[0].exchanges);
    assert VerdictAt(attempts, CaptchaCheck, 0) == Throws;
    assert CaptchaStage(calls[0].exchanges).calls == 1;
    CaptchaFailureEscapes(plate, vehicleType, calls, pages, blocksOf);
  }

  /**
    When every lookup call gets a solved CAPTCHA but the lookup endpoint never
    answers with a URL, the lookup stage is exhausted and `checkFines`
    answers with the URL error.
   */
  lemma LookupWithoutUrlGivesUrlError(plate: string, vehicleType: string, calls: seq<FinesCall>, pages: seq<Page>, blocksOf: string -> seq<Block>)
    requires WellFormedCalls(calls)
    requires |pages| >= Budget(DefaultMaxRetries)
    requires forall i :: 0 <= i < |calls| ==>
      var stage := CaptchaStage(calls[i].exchanges).end;
      stage.Finished? && stage.response.Some? && stage.response.value.Solved?
    requires forall i :: 0 <= i < |calls| ==> calls[i].lookup(FinesQuery(plate, vehicleType)) == None
    ensures CheckFines(plate, vehicleType, calls, pages, blocksOf) == Responded(Envelope(true, UrlMessage, []))
  {
    var q := FinesQuery(plate, vehicleType);
    var run := FinesStage(q, calls);
    var k := run.calls - 1;
    assert GetFinesUrl(q, calls[k]).Returned?;
    assert VerdictAt(FinesAttempts(q, calls), FinesCheck, k) == Reject;
  }

  /**
    Once the lookup stage has produced a URL, a first result page that says
    "no result found" ends the run with an OK envelope and no records.
   */
  lemma NotFoundPageGivesEmptyOk(plate: string, vehicleType: string, calls: seq<FinesCall>, pages: seq<Page>, blocksOf: string -> seq<Block>)
    requires WellFormedCalls(calls)
    requires |pages| >= Budget(DefaultMaxRetries)
    requires FinesStage(FinesQuery(plate, vehicleType), calls).end.Finished?
    requires FinesStage(FinesQuery(plate, vehicleType), calls).end.response.Some?
    requires pages[0].Fetched? && pages[0].container.Some? && ShowsNotFound(pages[0].container.value.innerText)
    ensures CheckFines(plate, vehicleType, calls, pages, blocksOf) == Responded(Envelope(false, OkMessage, []))
  {
    FinesStageCarriesSession(FinesQuery(plate, vehicleType), calls);
    assert VerdictAt(ParseAttempts(pages, blocksOf), ParseCheck, 0) == Accept;
    assert ParseStage(pages, blocksOf).calls == 1;
  }

  /**
    Since the page stage cannot escape, `checkFines` rejects exactly when the
    lookup stage does.
   */
  lemma CheckFinesRejectsOnlyFromLookup(plate: string, vehicleType: string, calls: seq<FinesCall>, pages: seq<Page>, blocksOf: string -> seq<Block>)
    requires WellFormedCalls(calls)
    requires |pages| >= Budget(DefaultMaxRetries)
    ensures CheckFines(plate, vehicleType, calls, pages, blocksOf) == Threw <==>
      FinesStage(FinesQuery(plate, vehicleType), calls).end.Escaped?
  {
    ParseStageNeverEscapes(pages, blocksOf);
  }
}

=== FILE: retry.dfy ===
/**
  `retryWrapper` of `utils.ts`: call an unreliable operation, feed what it
  produced (`undefined` if it raised) to a validator, stop at the first
  accepted value, otherwise sleep, run the optional retry hook and try again
  while the attempt counter is below `maxRetries`. The loop is a do-while, so
  the operation always runs at least once.

  The operation is given as the sequence of outcomes its successive calls
  produce. The validator is called outside the `try`: when it throws (a
  destructuring validator handed `undefined` or `null`), the exception leaves
  the wrapper.
 */
module RetryWrapper {
  import opened Wrappers

  /** What one call of the operation did. */
  datatype Attempt<T> = Raised | Returned(value: T)

  /** What the validator did with one response. */
  datatype Verdict = Accept | Reject | Throws

  /** How the wrapper ends: it returns `response` (undefined unless a value was accepted), or an exception escapes. */
  datatype RetryEnd<T> = Finished(response: Option<T>) | Escaped

  /**
    One run of the wrapper: how it ended, how many times the operation was
    called, and how many rejected attempts were followed by the sleep and the
    retry hook.
   */
  datatype RetryRun<T> = RetryRun(end: RetryEnd<T>, calls: nat, retries: nat)

  /** Default of the `maxRetries` option. */
  const DefaultMaxRetries: int := 5

  /** Number of calls the do-while loop makes when every attempt is rejected. */
  function Budget(maxRetries: int): (n: nat)
    ensures n >= 1 && n >= maxRetries
    ensures maxRetries >= 1 ==> n == maxRetries
    ensures maxRetries < 1 ==> n == 1
  {
    if maxRetries < 1 then 1 else maxRetries
  }

  /** The value the validator sees: `undefined` when the call raised, else what the call returned, unchanged. */
  function Fed<T>(a: Attempt<T>): (v: Option<T>)
    ensures v.None? <==> a.Raised?
    ensures a.Returned? ==> v == Some(a.value)
  {
    match a
    case Raised => None
    case Returned(x) => Some(x)
  }

  /** The verdict on the outcome of call `i`. */
  function VerdictAt<T>(attempts: seq<Attempt<T>>, validate: Option<T> -> Verdict, i: nat): Verdict
    requires i < |attempts|
  {
    validate(Fed(attempts[i]))
  }

  /**
    The loop from call `i` on, `i` attempts having been rejected already. The
    run stops after the first call whose verdict is not Reject, or after the
    rejected call that brings the counter up to `maxRetries`.
   */
  function RetryFrom<T>(attempts: seq<Attempt<T>>, validate: Option<T> -> Verdict, maxRetries: int, i: nat): (r: RetryRun<T>)
    requires i < Budget(maxRetries) <= |attempts|
    ensures i < r.calls <= Budget(maxRetries)
    ensures forall j :: i <= j < r.calls - 1 ==> VerdictAt(attempts, validate, j) == Reject
    ensures VerdictAt(attempts, validate, r.calls - 1) == Accept ==>
      r.end == Finished(Fed(attempts[r.calls - 1])) && r.retries == r.calls - 1
    ensures VerdictAt(attempts, validate, r.calls - 1) == Throws ==>
      r.end == Escaped && r.retries == r.calls - 1
    ensures VerdictAt(attempts, validate, r.calls - 1) == Reject ==>
      r.end == Finished(None) && r.calls == Budget(maxRetries) && r.retries == r.calls
    decreases Budget(maxRetries) - i
  {
    match validate(Fed(attempts[i]))
    case Accept => RetryRun(Finished(Fed(attempts[i])), i + 1, i)
    case Throws => RetryRun(Escaped, i + 1, i)
    case Reject =>
      if i + 1 < maxRetries then RetryFrom(attempts, validate, maxRetries, i + 1)
      else RetryRun(Finished(None), i + 1, i + 1)
  }

  /**
    `retryWrapper`. The call count is at most `max(maxRetries, 1)`; every call
    before the last was rejected; the run ends at the first accepted value and
    returns it, escapes at the first validator exception, and otherwise returns
    `undefined` after exactly `max(maxRetries, 1)` rejected calls. The sleep
    and the retry hook follow every rejected call, the last one included.
    `attempts` must list an outcome for every call the budget allows.
   */
  function Retry<T>(attempts: seq<Attempt<T>>, validate: Option<T> -> Verdict, maxRetries: int): (r: RetryRun<T>)
    requires Budget(maxRetries) <= |attempts|
    ensures 1 <= r.calls <= Budget(maxRetries)
    ensures forall j :: 0 <= j < r.calls - 1 ==> VerdictAt(attempts, validate, j) == Reject
    ensures VerdictAt(attempts, validate, r.calls - 1) == Accept ==>
      r.end == Finished(Fed(attempts[r.calls - 1])) && r.retries == r.calls - 1
    ensures r.end.Escaped? <==> VerdictAt(attempts, validate, r.calls - 1) == Throws
    ensures r.end.Escaped? ==> r.retries == r.calls - 1
    ensures VerdictAt(attempts, validate, r.calls - 1) == Reject <==> r.retries == r.calls
    ensures VerdictAt(attempts, validate, r.calls - 1) == Reject ==>
      r.end == Finished(None) && r.calls == Budget(maxRetries)
    ensures r.end.Finished? && r.end.response.Some? ==> validate(r.end.response) == Accept
  {
    RetryFrom(attempts, validate, maxRetries, 0)
  }

  /** A value the wrapper returns is what some call returned, and the validator accepted it. */
  lemma AcceptedCall<T>(attempts: seq<Attempt<T>>, validate: Option<T> -> Verdict, maxRetries: int) returns (k: nat)
    requires Budget(maxRetries) <= |attempts|
    requires Retry(attempts, validate, maxRetries).end.Finished? && Retry(attempts, validate, maxRetries).end.response.Some?
    ensures k < |attempts| && attempts[k] == Returned(Retry(attempts, validate, maxRetries).end.response.value)
    ensures validate(Some(attempts[k].value)) == Accept
  {
    var r := Retry(attempts, validate, maxRetries);
    k := r.calls - 1;
    assert VerdictAt(attempts, validate, k) == Accept;
  }

  /**
    The do-while loop of `retryWrapper` statement by statement, with the
    attempt counter, the continuation flag and the `response` variable of
    `retryWrapper`. It computes the same run as `Retry`.
   */
  method RetryLoop<T>(attempts: seq<Attempt<T>>, validate: Option<T> -> Verdict, maxRetries: int) returns (r: RetryRun<T>)
    requires Budget(maxRetries) <= |attempts|
    ensures r == Retry(attempts, validate, maxRetries)
  {
    var attempt: nat := 0;
    var calls: nat := 0;
    var shouldContinue := true;
    var response: Option<T> := None;
    while shouldContinue
      invariant calls <= Budget(maxRetries)
      invariant shouldContinue ==> attempt == calls < Budget(maxRetries) && response == None
      invariant shouldContinue ==> RetryFrom(attempts, validate, maxRetries, calls) == Retry(attempts, validate, maxRetries)
      invariant !shouldContinue ==> RetryRun(Finished(response), calls, attempt) == Retry(attempts, validate, maxRetries)
      decreases Budget(maxRetries) - calls, shouldContinue
    {
      ghost var rest := RetryFrom(attempts, validate, maxRetries, calls);
      var fnResponse := Fed(attempts[calls]);
      calls := calls + 1;
      var verdict := validate(fnResponse);
      if verdict == Throws {
        return RetryRun(Escaped, calls, attempt);
      }
      if verdict == Accept {
        shouldContinue := false;
        response := fnResponse;
      } else {
        attempt := attempt + 1;
        shouldContinue := attempt < maxRetries;
        assert !shouldContinue ==> rest == RetryRun(Finished(None), calls, attempt);
      }
    }
    r := RetryRun(Finished(response), calls, attempt);
  }

  /**
    Only the outcomes of the calls actually made matter: two operations that
    agree on those produce the same run. This is why a finite sequence of
    outcomes describes the operation completely.
   */
  lemma {:induction false} RetryReadsOnlyCalledAttempts<T>(a: seq<Attempt<T>>, b: seq<Attempt<T>>, validate: Option<T> -> Verdict, maxRetries: int)
    requires Budget(maxRetries) <= |a| && Budget(maxRetries) <= |b|
    requires a[..Retry(a, validate, maxRetries).calls] == b[..Retry(a, validate, maxRetries).calls]
    ensures Retry(b, validate, maxRetries) == Retry(a, validate, maxRetries)
  {
    var n := Retry(a, validate, maxRetries).calls;
    forall j | 0 <= j < n ensures a[j] == b[j] {
      assert a[j] == a[..n][j] && b[j] == b[..n][j];
    }
    RetryFromAgree(a, b, validate, maxRetries, 0, n);
  }

  lemma {:induction false} RetryFromAgree<T>(a: seq<Attempt<T>>, b: seq<Attempt<T>>, validate: Option<T> -> Verdict, maxRetries: int, i: nat, n: nat)
    requires i < Budget(maxRetries) <= |a| && Budget(maxRetries) <= |b|
    requires n == RetryFrom(a, validate, maxRetries, i).calls
    requires forall j :: i <= j < n ==> a[j] == b[j]
    ensures RetryFrom(b, validate, maxRetries, i) == RetryFrom(a, validate, maxRetries, i)
    decreases Budget(maxRetries) - i
  {
    assert a[i] == b[i];
    if validate(Fed(a[i])) == Reject && i + 1 < maxRetries {
      RetryFromAgree(a, b, validate, maxRetries, i + 1, n);
    }
  }
}

=== FILE: utils.dfy ===
/**
  The string helpers and validators of `utils.ts`: plate cleaning,
  vehicle-type inference, CAPTCHA normalisation and length check, the
  fines-URL prefix check, and extraction of one cookie pair from the
  `Set-Cookie` response header.
 */
module Utils {
  import opened Wrappers
  import opened JsString

  /** Prefix every accepted result-page URL starts with: the lookup service's origin. */
  const FinesUrlPrefix: string := "https://www.csgt.vn"

  /** Vehicle-type codes of the lookup form: cars and motorbikes. */
  const CarType: string := "1"
  const MotorbikeType: string := "2"

  /** `r` is obtained from `s` by deleting characters, keeping the rest in order. */
  predicate IsSubsequence(r: string, s: string)
    decreases |s|
  {
    if r == [] then true
    else if s == [] then false
    else if r[0] == s[0] then IsSubsequence(r[1..], s[1..])
    else IsSubsequence(r, s[1..])
  }

  /**
    `s.replace(/[^a-z0-9]/gi, '')`: the ASCII letters and digits of `s`, in
    order and with their case kept.
   */
  function StripNonAlnum(s: string): (r: string)
    ensures forall i :: 0 <= i < |r| ==> IsAsciiAlnum(r[i])
    ensures |r| <= |s|
  {
    if s == [] then []
    else if IsAsciiAlnum(s[0]) then [s[0]] + StripNonAlnum(s[1..])
    else StripNonAlnum(s[1..])
  }

  /** The cleaned string is obtained from the input by deleting characters. */
  lemma {:induction false} StripNonAlnumIsSubsequence(s: string)
    ensures IsSubsequence(StripNonAlnum(s), s)
  {
    if s != [] {
      StripNonAlnumIsSubsequence(s[1..]);
      var rest := StripNonAlnum(s[1..]);
      if IsAsciiAlnum(s[0]) {
        assert ([s[0]] + rest)[1..] == rest;
      } else if rest != [] {
        assert rest[0] != s[0];
      }
    }
  }

  /**
    Nothing but non-alphanumerics is deleted: each letter or digit occurs in
    the result exactly as often as in the input, everything else not at all.
   */
  lemma {:induction false} StripNonAlnumCounts(s: string)
    ensures forall c :: multiset(StripNonAlnum(s))[c] == if IsAsciiAlnum(c) then multiset(s)[c] else 0
  {
    if s != [] {
      StripNonAlnumCounts(s[1..]);
      assert s == [s[0]] + s[1..];
      assert multiset(s) == multiset{s[0]} + multiset(s[1..]);
    }
  }

  /** Cleaning distributes over concatenation: the regex acts character by character. */
  lemma {:induction false} StripNonAlnumConcat(a: string, b: string)
    ensures StripNonAlnum(a + b) == StripNonAlnum(a) + StripNonAlnum(b)
  {
    if a != [] {
      assert (a + b)[0] == a[0];
      assert (a + b)[1..] == a[1..] + b;
      StripNonAlnumConcat(a[1..], b);
    } else {
      assert a + b == b;
    }
  }

  /** `cleanPlate`: only the ASCII letters and digits of the plate, in order, case kept. */
  function CleanPlate(plate: string): (r: string)
    ensures forall i :: 0 <= i < |r| ==> IsAsciiAlnum(r[i])
    ensures IsSubsequence(r, plate)
    ensures forall c :: IsAsciiAlnum(c) ==> multiset(r)[c] == multiset(plate)[c]
  {
    StripNonAlnumIsSubsequence(plate);
    StripNonAlnumCounts(plate);
    StripNonAlnum(plate)
  }

  /** Cleaning a plate twice is the same as cleaning it once. */
  lemma CleanPlateIdempotent(plate: string)
    ensures CleanPlate(CleanPlate(plate)) == CleanPlate(plate)
  {
    StripKeepsAlnumString(CleanPlate(plate));
  }

  /** A string made only of letters and digits is left unchanged by the regex. */
  lemma {:induction false} StripKeepsAlnumString(s: string)
    requires forall i :: 0 <= i < |s| ==> IsAsciiAlnum(s[i])
    ensures StripNonAlnum(s) == s
  {
    if s != [] {
      StripKeepsAlnumString(s[1..]);
      assert s == [s[0]] + s[1..];
    }
  }

  /** `detectVehicleType`: an eight-character plate is a car, everything else a motorbike. */
  function DetectVehicleType(plate: string): (code: string)
    ensures code == CarType <==> |plate| == 8
    ensures code == MotorbikeType <==> |plate| != 8
  {
    if |plate| == 8 then CarType else MotorbikeType
  }

  /** `isValidCaptcha`: a non-empty text of exactly six characters. */
  predicate IsValidCaptcha(captcha: string)
    ensures IsValidCaptcha(captcha) <==> |captcha| == 6
  {
    |captcha| > 0 && |captcha| == 6
  }

  predicate IsLowerAlnum(c: char) {
    'a' <= c <= 'z' || IsAsciiDigit(c)
  }

  /** `cleanCaptcha`: trim, lower-case, then drop every character that is not a letter or digit. */
  function CleanCaptcha(text: string): (r: string)
    ensures forall i :: 0 <= i < |r| ==> IsLowerAlnum(r[i])
    ensures |r| <= |text|
  {
    var lowered := ToLower(Trim(text));
    StripLoweredIsLower(lowered);
    StripNonAlnum(lowered)
  }

  /** Stripping a string with no upper-case letters leaves only lower-case letters and digits. */
  lemma {:induction false} StripLoweredIsLower(s: string)
    requires forall i :: 0 <= i < |s| ==> !('A' <= s[i] <= 'Z')
    ensures forall i :: 0 <= i < |StripNonAlnum(s)| ==> IsLowerAlnum(StripNonAlnum(s)[i])
  {
    if s != [] {
      StripLoweredIsLower(s[1..]);
    }
  }

  /** Trimming before the regex changes nothing: white space is never kept anyway. */
  lemma CleanCaptchaIgnoresTrim(text: string)
    ensures CleanCaptcha(text) == StripNonAlnum(ToLower(text))
  {
    var head, tail := TrimParts(text);
    var mid := Trim(text);
    StripDropsWhitespace(head);
    StripDropsWhitespace(tail);
    ToLowerConcat(head + mid, tail);
    ToLowerConcat(head, mid);
    var lh, lm, lt := ToLower(head), ToLower(mid), ToLower(tail);
    assert ToLower(text) == lh + lm + lt;
    StripNonAlnumConcat(lh + lm, lt);
    StripNonAlnumConcat(lh, lm);
    assert StripNonAlnum(ToLower(text)) == StripNonAlnum(lm);
  }

  /** Lower-casing and then stripping a string made only of white space leaves nothing. */
  lemma StripDropsWhitespace(s: string)
    requires IsBlank(s)
    ensures StripNonAlnum(ToLower(s)) == []
  {
    var l := ToLower(s);
    assert forall i :: 0 <= i < |l| ==> !IsAsciiAlnum(l[i]) by {
      forall i | 0 <= i < |l| ensures !IsAsciiAlnum(l[i]) {
        assert IsWhitespace(s[i]);
        assert l[i] == s[i];
      }
    }
    StripDropsNonAlnum(l);
  }

  lemma {:induction false} StripDropsNonAlnum(s: string)
    requires forall i :: 0 <= i < |s| ==> !IsAsciiAlnum(s[i])
    ensures StripNonAlnum(s) == []
  {
    if s != [] {
      StripDropsNonAlnum(s[1..]);
    }
  }

  /** Normalising an already-normalised CAPTCHA text changes nothing. */
  lemma CleanCaptchaIdempotent(text: string)
    ensures CleanCaptcha(CleanCaptcha(text)) == CleanCaptcha(text)
  {
    var r := CleanCaptcha(text);
    CleanCaptchaIgnoresTrim(r);
    assert ToLower(r) == r;
    StripKeepsAlnumString(r);
  }

  /** The OCR reading "AB12C3" normalises to "ab12c3", which passes the length check. */
  lemma CleanCaptchaExample()
    ensures CleanCaptcha("AB12C3") == "ab12c3"
    ensures IsValidCaptcha(CleanCaptcha("AB12C3"))
  {
    var text := "AB12C3";
    var lowered := "ab12c3";
    assert ToLower(text) == lowered by {
      forall i | 0 <= i < 6 ensures ToLower(text)[i] == lowered[i] {}
    }
    assert forall i :: 0 <= i < |lowered| ==> IsAsciiAlnum(lowered[i]);
    StripKeepsAlnumString(lowered);
    CleanCaptchaIgnoresTrim(text);
  }

  /**
    `isValidFinesUrl`: a non-empty URL starting with `https://www.csgt.vn`.
    A plain prefix test, so it does not fix the host (see `PrefixAcceptsOtherHosts`).
   */
  predicate IsValidFinesUrl(url: string)
    ensures IsValidFinesUrl(url) <==> |url| >= |FinesUrlPrefix| && url[..|FinesUrlPrefix|] == FinesUrlPrefix
  {
    |url| > 0 && StartsWith(url, FinesUrlPrefix)
  }

  /**
    URLs whose host is not `www.csgt.vn` pass the check: a longer host name
    sharing the prefix, and `www.csgt.vn` as user information before `@`.
   */
  lemma PrefixAcceptsOtherHosts()
    ensures IsValidFinesUrl("https://www.csgt.vn.evil.example/x")
    ensures IsValidFinesUrl("https://www.csgt.vn@evil.example/x")
  {
  }

  /** One entry of the `set-cookie` header: a string, or something else (`undefined` when absent). */
  datatype HeaderValue = Text(text: string) | NotText

  /** `getCookieValue` accepts a single header or an array of them. */
  datatype Cookies = One(header: HeaderValue) | Many(headers: seq<HeaderValue>)

  function HeaderList(cookies: Cookies): seq<HeaderValue> {
    match cookies
    case One(h) => [h]
    case Many(hs) => hs
  }

  /** `header.split(';')[0]`: the `name=value` pair before the cookie attributes. */
  function CookiePair(header: string): (pair: string)
    ensures StartsWith(header, pair)
    ensures ';' !in pair
    ensures |pair| < |header| ==> header[|pair|] == ';'
  {
    SplitHead(header, ";");
    var pair := Split(header, ";")[0];
    assert forall i :: 0 <= i < |pair| ==> pair[i] == header[i] && !OccursAt(header, ";", i);
    assert forall i :: 0 <= i < |pair| ==> header[i..i + 1] == [header[i]];
    pair
  }

  /** A header whose cookie pair names the cookie `name`. */
  predicate Names(h: HeaderValue, name: string) {
    h.Text? && StartsWith(CookiePair(h.text), name + "=")
  }

  /** The loop of `getCookieValue` over the remaining headers. */
  function FindCookie(headers: seq<HeaderValue>, name: string): (r: Option<string>)
    ensures r.Some? ==> StartsWith(r.value, name + "=") && ';' !in r.value
    ensures r.None? <==> forall i :: 0 <= i < |headers| ==> !Names(headers[i], name)
  {
    if headers == [] then None
    else if !headers[0].Text? then FindCookie(headers[1..], name)
    else
      var pair := CookiePair(headers[0].text);
      if !StartsWith(pair, name + "=") then
        assert forall i :: 1 <= i < |headers| ==> headers[i] == headers[1..][i - 1];
        FindCookie(headers[1..], name)
      else Some(pair)
  }

  /**
    `getCookieValue`: the cookie pair of the first string header that sets
    `name`, or `null` when none does. Non-string entries are skipped.
   */
  function GetCookieValue(cookies: Cookies, name: string): (r: Option<string>)
    ensures r.Some? ==> StartsWith(r.value, name + "=") && ';' !in r.value
    ensures r.None? <==> forall i :: 0 <= i < |HeaderList(cookies)| ==> !Names(HeaderList(cookies)[i], name)
  {
    FindCookie(HeaderList(cookies), name)
  }

  /** The pair returned is the one of the first header naming the cookie, and a single header behaves as a one-element list. */
  lemma {:induction false} GetCookieValueFirst(cookies: Cookies, name: string, k: nat)
    requires k < |HeaderList(cookies)| && Names(HeaderList(cookies)[k], name)
    requires forall j :: 0 <= j < k ==> !Names(HeaderList(cookies)[j], name)
    ensures GetCookieValue(cookies, name) == Some(CookiePair(HeaderList(cookies)[k].text))
    ensures GetCookieValue(cookies, name) == GetCookieValue(Many(HeaderList(cookies)), name)
  {
    FindCookieFirst(HeaderList(cookies), name, k);
  }

  lemma {:induction false} FindCookieFirst(headers: seq<HeaderValue>, name: string, k: nat)
    requires k < |headers| && Names(headers[k], name)
    requires forall j :: 0 <= j < k ==> !Names(headers[j], name)
    ensures FindCookie(headers, name) == Some(CookiePair(headers[k].text))
    decreases k
  {
    if k > 0 {
      assert !Names(headers[0], name);
      FindCookieFirst(headers[1..], name, k - 1);
    }
  }
}

=== FILE: wrappers.dfy ===
/** The Some/None datatype used wherever the JavaScript code has a value that may be `null` or `undefined`. */
module Wrappers {

  datatype Option<+T> = None | Some(value: T)
}
